=== FILE: README.md ===
# chargeback-lambda, modelled in Dafny

A model of the decision logic of a small service that records chargebacks,
which are card-payment disputes. The service can run as a standalone HTTP
server or as an API Gateway Lambda function. The model covers:

- **the chargeback entity** (`chargeback.dfy`, module `Entity`):
  - the seven request-validation rules, which are all checked and aggregated into one message;
  - card-number masking;
  - the `NewChargeback` factory;
  - the `IsValid` predicate;
  - the pending → approved | rejected state machine;
- **the create-chargeback use case** (`create_chargeback.dfy`, module `UseCase`):
  - lookup by transaction ID, duplicate refusal, entity construction, save, and projection into a response;
  - sequential runs against an abstract store of records;
- **the domain log entry** (`logger.dfy`, module `Service`):
  - levels and their names;
  - entry validation;
  - copy-on-write field maps;
- **the structured logger's decisions** (`structured_logger.dfy`, module `Logging`):
  - format names and configuration checks;
  - the two level converters;
  - the constructor's failure modes and the preset loggers;
  - the "validate, then gate on level" prefix of `Log`;
  - the field merging of `Debug`/`Info`/`Warn`/`Error`;
- **the Lambda adapter** (`lambda.dfy`, module `Lambda`):
  - `parseLogLevel`;
  - routing on (method, path);
  - mapping use-case errors to status codes;
- **the HTTP server** (`server.dfy`, module `Server`):
  - port validation through a model of `strconv.Atoi`;
  - the route table, the CORS preflight and headers, the 404/405/200 decisions, and `Start`'s configuration check.

`strings.dfy` (module `Strings`) models the Go standard-library string functions the code relies on: `TrimSpace`, `HasPrefix`, `Contains`, `Join`, `Repeat` and `ToLower`. `wrappers.dfy` holds `Option`, `Result` and `Outcome`.

The models use these types:

- Go `error` values are their `Error()` text.
- `time.Time` is an instant counted from the zero time, so `IsZero` holds exactly at 0.
- `float64` amounts are `real`.
- The `LogLevel` and `LogFormat` ints are `int`, so out-of-range values exist and are handled as in Go.

Collaborators are not modelled; what they would return is a parameter of the model:

- what the repository returns from `FindByTransactionID` and `Save`;
- the clock reading;
- the outcome of decoding a request body.

Card masking follows the code. A cleaned card number shorter than four characters becomes `****`. A cleaned number of exactly four characters is returned unchanged, without adding any `*` (`MaskOfFour`).

## Model

| member | source | states |
|---|---|---|
| Strings.BlankIffAllSpace | internal/domain/entity/chargeback.go:62 | `strings.TrimSpace(s) == ""` holds exactly when every character of s is white space, so the required-field rules fail on all-blank input only |
| Entity.RuleOrderUnrolled | internal/domain/entity/chargeback.go:60-89 | the rule-table list of failures is the seven independent checks concatenated in source order (transaction ID, merchant, amount, currency, card, reason, date), each contributing its message exactly when its rule is broken |
| Entity.FailedMessagesComplete | internal/domain/entity/chargeback.go:60-88 | every broken rule contributes its message to the list |
| Entity.FailedMessagesSound | internal/domain/entity/chargeback.go:60-88 | every message in the list comes from a rule the request breaks |
| Entity.NoErrorsIffNoViolation | internal/domain/entity/chargeback.go:60-94 | the error list is empty exactly when no rule is broken |
| Entity.Validate | internal/domain/entity/chargeback.go:59-95 | passes if and only if no rule is broken; otherwise the error is "validation errors: " followed by the broken rules' messages in fixed order, joined with "; " |
| Entity.ValidationErrorMentionsEveryViolation | internal/domain/entity/chargeback.go:62-91 | no short-circuiting: for each broken rule, including an invalid reason (lines 82-84, 156-171), the aggregated error fails and contains that rule's message |
| Entity.ValidationErrorSaysValidation | internal/domain/entity/chargeback.go:90-92 | every validation error contains the word "validation" |
| Entity.RemoveAll | internal/domain/entity/chargeback.go:176-177 | `strings.ReplaceAll(s, c, "")`: the result has no c, and otherwise holds the same characters with the same counts |
| Entity.RemoveAllAppend | internal/domain/entity/chargeback.go:176-177 | removal distributes over concatenation, so the kept characters stay in order |
| Entity.MaskCardNumber | internal/domain/entity/chargeback.go:174-188 | after spaces and hyphens are removed: "****" if fewer than four characters remain; otherwise the result has the cleaned length, ends with the last four cleaned characters, and is '*' everywhere before them |
| Entity.MaskShape | internal/domain/entity/chargeback.go:174-188 | a mask is at least four characters long and holds no space or hyphen |
| Entity.MaskIdempotent | internal/domain/entity/chargeback.go:174-188 | masking a mask returns it unchanged |
| Entity.MaskOfFour | internal/domain/entity/chargeback.go:179-187 | a card that cleans to exactly four characters is shown whole (the `< 4` boundary) |
| Entity.MaskHidesSomething | internal/domain/entity/chargeback.go:179-187 | for any other cleaned length the mask contains a '*' |
| Entity.NewChargeback | internal/domain/entity/chargeback.go:98-119 | fails exactly when Validate fails, with the same error; on success the ID is empty, the status is pending, the card is masked, the pass-through fields are copied, and the chargeback date, creation time and update time are the one instant `now` |
| Entity.NewChargebackIsValid | internal/domain/entity/chargeback.go:98-153 | a record built at a non-zero instant satisfies IsValid, even though IsValid does not trim and accepts any non-empty reason |
| Entity.Approve | internal/domain/entity/chargeback.go:122-130 | succeeds exactly from pending, moving to approved and stamping the update time with nothing else changed; otherwise the record is unchanged and the error is "only pending chargebacks can be approved" |
| Entity.Reject | internal/domain/entity/chargeback.go:133-141 | the same for rejected, with "only pending chargebacks can be rejected" |
| Entity.TerminalStatusesStick | internal/domain/entity/chargeback.go:122-141 | approved and rejected are terminal: no sequence of Approve/Reject calls changes a record that is not pending |
| Entity.FirstDecisionWins | internal/domain/entity/chargeback.go:122-141 | from pending, the first call alone decides the final status |
| UseCase.ResponseRoundTrip | internal/usecase/create_chargeback.go:88-102 | the response copies every field of the record; the projection is a bijection between records and responses |
| UseCase.Execute | internal/usecase/create_chargeback.go:54-103 | a lookup error gives "failed to check existing chargeback: "+err; an existing record gives "chargeback already exists for transaction "+ID; an invalid request gives "failed to create chargeback entity: "+the validation text; on each of these paths nothing is saved. Save is called exactly after a clean lookup of a valid request, with the record NewChargeback builds. A save error gives "failed to save chargeback: "+err. Success happens exactly when the save succeeds, and returns that record under the store's ID, pending, with the masked card |
| UseCase.DuplicateBeatsValidation | internal/usecase/create_chargeback.go:56-80 | the lookup runs first: an invalid request whose transaction already exists gets the duplicate error, never the entity error |
| UseCase.FindByTransactionId | internal/usecase/create_chargeback.go:56 | the store lookup finds a record exactly when one carries the transaction ID, and what it returns carries that ID |
| UseCase.SubmitAddsAtMostOne | internal/usecase/create_chargeback.go:54-103 | one request changes the store only on success, and then appends exactly the returned record: pending, masked, under the assigned ID |
| UseCase.SubmitKeepsTransactionsUnique | internal/usecase/create_chargeback.go:56-85 | run sequentially, a request never adds a second record for a transaction ID |
| UseCase.UniqueMeansAtMostOne | internal/usecase/create_chargeback.go:56-63 | in a store with unique transaction IDs each ID is held by at most one record, and by none exactly when the lookup finds nothing |
| UseCase.SameTransactionTwice | internal/usecase/create_chargeback.go:56-85 | two sequential requests for one transaction leave at most one record; once the first is stored, a second with a clean lookup is refused with the duplicate message and changes nothing |
| Service.LevelString | internal/domain/service/logger.go:27-40 | Debug/Info/Warn/Error are named "DEBUG"/"INFO"/"WARN"/"ERROR"; the name is "UNKNOWN" exactly for an invalid level |
| Service.LevelStringInjective | internal/domain/service/logger.go:27-45 | valid levels have pairwise distinct names |
| Service.ValidateEntry | internal/domain/service/logger.go:60-70 | passes exactly when the message is non-empty and the level is valid; the empty message is reported first; an invalid level reads "invalid log level: UNKNOWN" |
| Service.WithField | internal/domain/service/logger.go:74-90 | level and message are kept; the keys are the old keys plus the new key; the new key maps to the new value and every other key keeps its value |
| Service.WithFields | internal/domain/service/logger.go:94-112 | level and message are kept; the keys are the union; the new map wins on shared keys and the old values survive elsewhere |
| Service.WithFieldIsWithFields | internal/domain/service/logger.go:74-112 | adding one field is merging a one-entry map |
| Service.WithFieldsTwice | internal/domain/service/logger.go:94-112 | merging twice is merging the union of the maps, with later values winning |
| Service.WithFieldsKeepsValidity | internal/domain/service/logger.go:60-112 | adding fields never changes the outcome of validation |
| Logging.FormatString | internal/infra/logging/structured_logger.go:25-39 | JSON is "json" and Text is "text"; the name is "unknown" exactly for an invalid format |
| Logging.ValidateConfig | internal/infra/logging/structured_logger.go:57-67 | passes exactly when both level and format are valid; an invalid level is reported first as "invalid log level: UNKNOWN", then "invalid log format: unknown" |
| Logging.ConvertersAgree | internal/infra/logging/structured_logger.go:127-156 | the two converters are the same function: order-preserving on the valid levels, and Info for every other level |
| Logging.NewStructuredLogger | internal/infra/logging/structured_logger.go:78-124 | succeeds exactly for a valid configuration, otherwise the error is "invalid logger config: " + the validation error; on success the minimum level is the converted level, and the handler is JSON exactly for the JSON format |
| Logging.UnsupportedFormatUnreachable | internal/infra/logging/structured_logger.go:98-105 | the "unsupported log format" error is never returned |
| Logging.PresetLoggersBuild | internal/infra/logging/structured_logger.go:288-319 | the default and production loggers build as JSON from Info up; the development logger builds as text from Debug up |
| Logging.Log | internal/infra/logging/structured_logger.go:159-181 | an invalid entry is refused with "invalid log entry: " + its validation error; a valid entry is emitted exactly when its converted level reaches the handler's minimum, with its message and fields, at the slog level its domain level converts to |
| Logging.EmitIffAtLeastConfigured | internal/infra/logging/structured_logger.go:78-181 | through a logger built from a configuration, a valid entry is emitted exactly when its level is at least the configured level, and at the converted slog level |
| Logging.MergeFields | internal/infra/logging/structured_logger.go:191-196 | the merged map has exactly the keys found in any argument map |
| Logging.MergeFieldsLastWins | internal/infra/logging/structured_logger.go:191-196 | a merged key holds the value from the last map that has it |
| Logging.EmptyMessageRefused | internal/infra/logging/structured_logger.go:184-253 | every level helper refuses an empty message with "invalid log entry: log message cannot be empty" |
| Lambda.ParseLogLevel | cmd/lambda/main.go:191-204 | the result is always a valid level |
| Lambda.ParseLogLevelIgnoresCase | cmd/lambda/main.go:192 | parsing is insensitive to case |
| Lambda.ParseLogLevelDefault | cmd/lambda/main.go:201-202 | anything that does not lower-case to a keyword is Info |
| Lambda.ParseLogLevelRoundTrip | cmd/lambda/main.go:191-204 | parsing the name of a valid level gives back that level, and "WARNING" gives Warn |
| Lambda.RouteOf | cmd/lambda/main.go:74-87 | health is exactly GET "/health"; creation is exactly a POST whose path starts with "/chargebacks" or "/api/v1/chargebacks" |
| Lambda.RouteExamples | cmd/lambda/main.go:74-87 | creation is a prefix match ("/chargebacks/x"); GET "/chargebacks", POST "/health" and GET "/health/" are not found |
| Lambda.Handle | cmd/lambda/main.go:67-113 | an unrouted pair gets 404 with the "Route not found" body; GET /health gets 200 with the fixed health body; a POST under either chargeback prefix is answered by handleCreateChargeback |
| Lambda.HandleCreateStatus | cmd/lambda/main.go:77-80 | a POST under "/chargebacks" or "/api/v1/chargebacks" gets 400 for an undecodable body or an invalid request and 201 for a stored record |
| Lambda.HandleCreateChargeback | cmd/lambda/main.go:115-174 | an undecodable body is a 400; a use-case error is a 400 when its text contains "validation" and a 500 otherwise; success is a 201 carrying the use-case response |
| Lambda.LookupErrorSaysValidation | cmd/lambda/main.go:137 | the lookup-error prefix cannot supply or complete "validation", so the wrapped error contains it exactly when the store's error does |
| Lambda.DuplicateErrorSaysValidation | cmd/lambda/main.go:137 | the duplicate error contains "validation" exactly when the transaction ID does |
| Lambda.SaveErrorSaysValidation | cmd/lambda/main.go:137 | the save-error prefix contains "validation" exactly when the store's error does |
| Lambda.EntityErrorSaysValidation | cmd/lambda/main.go:137 | every wrapped validation failure contains "validation" |
| Lambda.CreateStatusByPath | cmd/lambda/main.go:129-173 | status by use-case path: invalid request 400; duplicate 500 unless the transaction ID says "validation"; store failures 500 unless their text says it; stored 201 |
| Lambda.DuplicateOfSampleIsServerError | internal/usecase/create_chargeback_test.go:141-176 | a duplicate of the tests' transaction "tx-12345" is answered with 500, not a client error, since its error text never says "validation" |
| Server.Atoi | internal/server/server.go:41 | accepted exactly when, after an optional sign, a non-empty run of ASCII digits remains whose signed value fits in int64; the value is that signed value |
| Server.LeadingZeroValue | internal/server/server.go:41 | a leading zero does not change the value of a digit string |
| Server.AtoiPlusSign | internal/server/server.go:41 | a leading '+' is accepted and changes nothing ("+8080" reads as "8080") |
| Server.AtoiLeadingZero | internal/server/server.go:41 | leading zeros are accepted and change nothing ("08080" reads as "8080") |
| Server.AtoiMinusSign | internal/server/server.go:41 | a leading '-' negates, down to the int64 minimum |
| Server.NatDigitsValue | internal/server/server.go:41 | reading back the decimal digits of n gives n |
| Server.AtoiItoa | internal/server/server.go:41 | Atoi reads back every int64 written in decimal |
| Server.ValidateServerConfig | internal/server/server.go:35-46 | passes exactly for a non-empty port that Atoi accepts; an empty port gives "port is required", an unparseable one "port must be a valid number" |
| Server.PortsAccepted | internal/server/server.go:35-46 | every decimal int64 is an accepted port, including negative or out-of-range port numbers; a port with any character that is neither a digit nor a leading sign is refused |
| Server.Start | internal/server/server.go:168-173 | an invalid configuration gives "invalid server configuration: " + the validation error before anything listens; otherwise the address is ":" + port |
| Server.RouteExistsExactly | internal/server/server.go:114-122 | a route exists exactly for "/health" and "/chargebacks"; no prefix matching |
| Server.ServeHTTP | internal/server/server.go:78-153 | the three CORS headers are on every response. OPTIONS gets 200 with no routing. Any other method on an unknown path gets 404 `{"error":"Not found"}`. /health gives 200 for GET with the body service "chargeback-api", status "ok" and the timestamp, and 405 `{"error":"Method not allowed"}` otherwise. /chargebacks is handed to the chargeback handler exactly when the method is not OPTIONS. Every reply with a JSON body carries `Content-Type: application/json` |

## Left out

- The AWS SDK, the DynamoDB client and repository, and environment-variable configuration (`loadConfiguration`, `getEnvOrDefault`, `init`, `lambda.Start`, `main`): these are I/O. The repository's two calls are inputs (`Lookup`, `SaveResult`, `Faults`).
- The real store's `Save`: it is modelled as assigning an ID, any string, chosen by the store. Whether the ID is non-empty depends on code that is not part of this model.
- Concurrency: only sequential runs are modelled. Concurrent requests for one transaction can both pass the lookup before either saves, so uniqueness is proved for sequential execution only.
- `time.Now`: the instant is a parameter (`now`, `timestamp`). RFC 3339 formatting of the health timestamp is not modelled.
- JSON encoding and decoding: the Lambda body decoding outcome is an input. Success bodies are the response value, not its bytes. `json.Marshal` failures are not modelled. They would need a NaN or infinite amount; NaN passes `Amount <= 0` in Go, and `real` has neither. Server bodies are string maps, without the encoder's trailing newline.
- `float64`: the amount is an exact `real`, so rounding, NaN and infinities are not modelled.
- Unicode: strings are sequences of code points, while Go's `len` and slicing count bytes. `MaskCardNumber` is therefore exact only for single-byte characters. `ToLower` maps ASCII letters plus the two non-ASCII letters Go lowers to ASCII (U+0130, U+212A), and leaves every other character alone, which is all `parseLogLevel` can distinguish.
- Response headers of the Lambda adapter: every response carries `Content-Type: application/json`. In the server, `Content-Type` is modelled on the 404/405/200 replies.
- Rendering of log records by slog: JSON/text output, the `service`/`version` attributes, the writer (nil meaning stdout), and `WithContext`'s untyped context lookups.
- The Lambda adapter's logger calls (cmd/lambda/main.go:68-71, 119-121, 132-134, 165-167): they only write log records and change no response, so the adapter model produces responses alone.
- Per-request logging in `ServeHTTP`, the `responseWriter` status wrapper, `http.ServeMux` dispatch, server timeouts and `ListenAndServe`.
- The chargeback HTTP handler behind "/chargebacks" in the standalone server: its code is not part of this model, so the model stops at handing the request over.
- The use case's own request type has the same fields as the entity's request type and is copied field by field. The model uses one type for both.
- A nil field map and an empty one behave alike in Go's reads, range loops and `Validate`, so both are the empty map.
- `examples/builder_example.go`: a demonstration program that prints.
- Lambda.HandleCreateChargeback: states the status code on every path, but the text of the 400 bodies only as built, not as a contract.

=== FILE: chargeback.dfy ===
/** The chargeback entity: request validation, construction, card masking
    and the pending -> approved | rejected state machine. */
module Entity {
  import opened Wrappers
  import opened Strings

  // ChargebackStatus is a Go string type; these are its three named values.
  const StatusPending := "pending"
  const StatusApproved := "approved"
  const StatusRejected := "rejected"

  // ChargebackReason is a Go string type; these are its four named values.
  const ReasonFraud := "fraud"
  const ReasonAuthorizationError := "authorization_error"
  const ReasonProcessingError := "processing_error"
  const ReasonConsumerDispute := "consumer_dispute"

  /** A time.Time, measured from Go's zero instant: IsZero holds only there. */
  datatype Time = Time(sinceZero: int) {
    predicate IsZero() {
      sinceZero == 0
    }
  }

  /** The persisted record. The amount is a float64 in Go; it is only ever
      compared with zero, so a real stands in for it. */
  datatype Chargeback = Chargeback(
    id: string,
    transactionId: string,
    merchantId: string,
    amount: real,
    currency: string,
    cardNumber: string,
    reason: string,
    status: string,
    description: string,
    transactionDate: Time,
    chargebackDate: Time,
    createdAt: Time,
    updatedAt: Time)

  datatype CreateChargebackRequest = CreateChargebackRequest(
    transactionId: string,
    merchantId: string,
    amount: real,
    currency: string,
    cardNumber: string,
    reason: string,
    description: string,
    transactionDate: Time)

  /* ---------------------------------------------------------------------
     Validation
     --------------------------------------------------------------------- */

  /** isValidReason: membership in the four named reasons. */
  predicate IsValidReason(reason: string) {
    || reason == ReasonFraud
    || reason == ReasonAuthorizationError
    || reason == ReasonProcessingError
    || reason == ReasonConsumerDispute
  }

  /** The seven rules of Validate, in the order they are checked. */
  datatype Rule =
    | TransactionIdRule
    | MerchantIdRule
    | AmountRule
    | CurrencyRule
    | CardNumberRule
    | ReasonRule
    | TransactionDateRule

  const RuleOrder: seq<Rule> :=
    [TransactionIdRule, MerchantIdRule, AmountRule, CurrencyRule,
     CardNumberRule, ReasonRule, TransactionDateRule]

  /** Whether `req` breaks `rule`. */
  predicate Violates(req: CreateChargebackRequest, rule: Rule) {
    match rule
    case TransactionIdRule => IsBlank(req.transactionId)
    case MerchantIdRule => IsBlank(req.merchantId)
    case AmountRule => req.amount <= 0.0
    case CurrencyRule => IsBlank(req.currency)
    case CardNumberRule => IsBlank(req.cardNumber)
    case ReasonRule => !IsValidReason(req.reason)
    case TransactionDateRule => req.transactionDate.IsZero()
  }

  function Message(rule: Rule): string {
    match rule
    case TransactionIdRule => "transaction ID is required"
    case MerchantIdRule => "merchant ID is required"
    case AmountRule => "amount must be greater than zero"
    case CurrencyRule => "currency is required"
    case CardNumberRule => "card number is required"
    case ReasonRule => "invalid chargeback reason"
    case TransactionDateRule => "transaction date is required"
  }

  /** The messages of the rules in `rules` that `req` breaks, in order. */
  function FailedMessages(req: CreateChargebackRequest, rules: seq<Rule>): seq<string> {
    if |rules| == 0 then [] else Check(req, rules[0]) + FailedMessages(req, rules[1..])
  }

  /** The message of `rule` if `req` breaks it. */
  function Check(req: CreateChargebackRequest, rule: Rule): seq<string> {
    if Violates(req, rule) then [Message(rule)] else []
  }

  /** The message of every listed rule that `req` breaks is in the list. */
  lemma {:induction false} FailedMessagesComplete(req: CreateChargebackRequest, rules: seq<Rule>, rule: Rule)
    requires rule in rules && Violates(req, rule)
    ensures Message(rule) in FailedMessages(req, rules)
  {
    if rules[0] != rule {
      FailedMessagesComplete(req, rules[1..], rule);
    }
  }

  /** Every message in the list belongs to a listed rule that `req` breaks. */
  lemma {:induction false} FailedMessagesSound(req: CreateChargebackRequest, rules: seq<Rule>, m: string)
    requires m in FailedMessages(req, rules)
    ensures exists rule :: rule in rules && Violates(req, rule) && Message(rule) == m
  {
    if m !in Check(req, rules[0]) {
      FailedMessagesSound(req, rules[1..], m);
      var rule :| rule in rules[1..] && Violates(req, rule) && Message(rule) == m;
      assert rule in rules;
    }
  }

  const ValidationPrefix := "validation errors: "

  /** The error list Validate collects, spelt out: one independent check
      per rule in source order, none of them returning early. */
  lemma RuleOrderUnrolled(req: CreateChargebackRequest)
    ensures FailedMessages(req, RuleOrder) ==
      Check(req, TransactionIdRule) + (Check(req, MerchantIdRule) + (Check(req, AmountRule)
      + (Check(req, CurrencyRule) + (Check(req, CardNumberRule) + (Check(req, ReasonRule)
      + Check(req, TransactionDateRule))))))
  {
    var rs := RuleOrder;
    var f6 := FailedMessages(req, rs[6..]);
    assert rs[6..][1..] == [];
    assert rs[6..][0] == TransactionDateRule;
    assert f6 == Check(req, TransactionDateRule) + FailedMessages(req, []);
    assert Check(req, TransactionDateRule) + [] == Check(req, TransactionDateRule);
    var f5 := FailedMessages(req, rs[5..]);
    assert rs[5..][1..] == rs[6..];
    assert f5 == Check(req, ReasonRule) + f6;
    var f4 := FailedMessages(req, rs[4..]);
    assert rs[4..][1..] == rs[5..];
    assert f4 == Check(req, CardNumberRule) + f5;
    var f3 := FailedMessages(req, rs[3..]);
    assert rs[3..][1..] == rs[4..];
    assert f3 == Check(req, CurrencyRule) + f4;
    var f2 := FailedMessages(req, rs[2..]);
    assert rs[2..][1..] == rs[3..];
    assert f2 == Check(req, AmountRule) + f3;
    var f1 := FailedMessages(req, rs[1..]);
    assert rs[1..][1..] == rs[2..];
    assert f1 == Check(req, MerchantIdRule) + f2;
    assert FailedMessages(req, rs) == Check(req, TransactionIdRule) + f1;
  }

  /** Every rule is in RuleOrder. */
  lemma RuleInOrder(rule: Rule)
    ensures rule in RuleOrder
  {
    match rule
    case TransactionIdRule =>
    case MerchantIdRule =>
    case AmountRule =>
    case CurrencyRule =>
    case CardNumberRule =>
    case ReasonRule =>
    case TransactionDateRule =>
  }

  /** Some rule is broken exactly when the error list is non-empty. */
  lemma NoErrorsIffNoViolation(req: CreateChargebackRequest)
    ensures |FailedMessages(req, RuleOrder)| == 0 <==> forall rule: Rule :: !Violates(req, rule)
  {
    var errors := FailedMessages(req, RuleOrder);
    if |errors| > 0 {
      FailedMessagesSound(req, RuleOrder, errors[0]);
    } else {
      forall rule: Rule
        ensures !Violates(req, rule)
      {
        RuleInOrder(rule);
        if Violates(req, rule) {
          FailedMessagesComplete(req, RuleOrder, rule);
        }
      }
    }
  }

  /** CreateChargebackRequest.Validate: every rule is checked (no early
      return) and the messages of the broken ones are joined with "; ". */
  function Validate(req: CreateChargebackRequest): (r: Outcome)
    ensures r == Pass <==> forall rule: Rule :: !Violates(req, rule)
    ensures r.Fail? ==> r.error == ValidationPrefix + Join(FailedMessages(req, RuleOrder), "; ")
  {
    var errors := FailedMessages(req, RuleOrder);
    NoErrorsIffNoViolation(req);
    if |errors| > 0 then Fail(ValidationPrefix + Join(errors, "; ")) else Pass
  }

  /** Every broken rule's message can be found in the validation error. */
  lemma ValidationErrorMentionsEveryViolation(req: CreateChargebackRequest, rule: Rule)
    requires Violates(req, rule)
    ensures Validate(req).Fail?
    ensures Contains(Validate(req).error, Message(rule))
  {
    var msgs := FailedMessages(req, RuleOrder);
    RuleInOrder(rule);
    FailedMessagesComplete(req, RuleOrder, rule);
    var k :| 0 <= k < |msgs| && msgs[k] == Message(rule);
    JoinContainsParts(msgs, "; ", k);
    ContainsInSuffix(ValidationPrefix, Join(msgs, "; "), Message(rule));
  }

  /** A validation error always carries the word "validation". */
  lemma ValidationErrorSaysValidation(req: CreateChargebackRequest)
    requires Validate(req).Fail?
    ensures Contains(Validate(req).error, "validation")
  {
    assert ValidationPrefix[..10] == "validation";
    ContainsAtStart(ValidationPrefix, Join(FailedMessages(req, RuleOrder), "; "), "validation");
  }

  /* ---------------------------------------------------------------------
     Card masking
     --------------------------------------------------------------------- */

  /** strings.ReplaceAll(s, [c], ""). */
  function RemoveAll(s: string, c: char): (r: string)
    ensures c !in r
    ensures multiset(r) == multiset(s)[c := 0]
  {
    if |s| == 0 then []
    else
      assert s == [s[0]] + s[1..];
      (if s[0] == c then [] else [s[0]]) + RemoveAll(s[1..], c)
  }

  /** Removing a character works piecewise, so it keeps the order of the
      characters it keeps. */
  lemma {:induction false} RemoveAllAppend(a: string, b: string, c: char)
    ensures RemoveAll(a + b, c) == RemoveAll(a, c) + RemoveAll(b, c)
  {
    if |a| > 0 {
      assert (a + b)[1..] == a[1..] + b;
      RemoveAllAppend(a[1..], b, c);
    } else {
      assert a + b == b;
    }
  }

  /** A string without `c` is left as it is. */
  lemma {:induction false} RemoveAllAbsent(s: string, c: char)
    requires c !in s
    ensures RemoveAll(s, c) == s
  {
    if |s| > 0 {
      RemoveAllAbsent(s[1..], c);
    }
  }

  /** The card number with its spaces and hyphens removed. */
  function Clean(card: string): string {
    RemoveAll(RemoveAll(card, ' '), '-')
  }

  /** maskCardNumber. */
  function MaskCardNumber(card: string): (r: string)
    ensures |Clean(card)| < 4 ==> r == "****"
    ensures |Clean(card)| >= 4 ==> |r| == |Clean(card)|
    ensures |Clean(card)| >= 4 ==> r[|r| - 4..] == Clean(card)[|Clean(card)| - 4..]
    ensures forall i :: 0 <= i < |r| - 4 ==> r[i] == '*'
  {
    var cleaned := Clean(card);
    if |cleaned| < 4 then "****"
    else Repeat('*', |cleaned| - 4) + cleaned[|cleaned| - 4..]
  }

  /** The mask is never shorter than four characters and keeps no separator. */
  lemma MaskShape(card: string)
    ensures |MaskCardNumber(card)| >= 4
    ensures ' ' !in MaskCardNumber(card) && '-' !in MaskCardNumber(card)
  {
    var cleaned := Clean(card);
    var m := MaskCardNumber(card);
    assert ' ' !in cleaned by {
      assert multiset(cleaned)[' '] == multiset(RemoveAll(card, ' '))[' '];
    }
    if |cleaned| >= 4 {
      forall i | 0 <= i < |m|
        ensures m[i] != ' ' && m[i] != '-'
      {
        if i >= |m| - 4 {
          assert m[i] == m[|m| - 4..][i - (|m| - 4)];
          assert m[i] == cleaned[i];
        }
      }
    }
  }

  /** Masking a masked card number changes nothing. */
  lemma MaskIdempotent(card: string)
    ensures MaskCardNumber(MaskCardNumber(card)) == MaskCardNumber(card)
  {
    var m := MaskCardNumber(card);
    MaskShape(card);
    RemoveAllAbsent(m, ' ');
    RemoveAllAbsent(m, '-');
    MaskFixedPoint(m);
  }

  /** A clean string of at least four characters that is '*' before its
      last four is its own mask. */
  lemma MaskFixedPoint(x: string)
    requires Clean(x) == x && |x| >= 4
    requires forall i :: 0 <= i < |x| - 4 ==> x[i] == '*'
    ensures MaskCardNumber(x) == x
  {
    var k := |x| - 4;
    assert x[..k] == Repeat('*', k);
    assert x == x[..k] + x[k..];
  }

  /** A card number that cleans to exactly four characters is shown whole:
      the mask holds no '*' unless the input did. */
  lemma MaskOfFour(card: string)
    requires |Clean(card)| == 4
    ensures MaskCardNumber(card) == Clean(card)
  {
  }

  /** For every other cleaned length the mask shows at least one '*'. */
  lemma MaskHidesSomething(card: string)
    requires |Clean(card)| != 4
    ensures '*' in MaskCardNumber(card)
  {
    var m := MaskCardNumber(card);
    if |Clean(card)| < 4 {
      assert m[0] == '*';
    } else {
      assert m[0] == '*';
    }
  }

  /* ---------------------------------------------------------------------
     Construction and transitions
     --------------------------------------------------------------------- */

  /** NewChargeback: validate, then build a pending record stamped with the
      single instant `now` (time.Now() in the source). */
  function NewChargeback(req: CreateChargebackRequest, now: Time): (r: Result<Chargeback>)
    ensures r.Failure? <==> Validate(req).Fail?
    ensures r.Failure? ==> r.error == Validate(req).error
    ensures r.Success? ==>
      var c := r.value;
      && c.id == ""
      && c.status == StatusPending
      && c.cardNumber == MaskCardNumber(req.cardNumber)
      && c.transactionId == req.transactionId
      && c.merchantId == req.merchantId
      && c.amount == req.amount
      && c.currency == req.currency
      && c.reason == req.reason
      && c.description == req.description
      && c.transactionDate == req.transactionDate
      && c.chargebackDate == now && c.createdAt == now && c.updatedAt == now
  {
    match Validate(req)
    case Fail(e) => Failure(e)
    case Pass =>
      Success(Chargeback(
        id := "",
        transactionId := req.transactionId,
        merchantId := req.merchantId,
        amount := req.amount,
        currency := req.currency,
        cardNumber := MaskCardNumber(req.cardNumber),
        reason := req.reason,
        status := StatusPending,
        description := req.description,
        transactionDate := req.transactionDate,
        chargebackDate := now,
        createdAt := now,
        updatedAt := now))
  }

  /** IsValid: the record's required fields are present. Unlike Validate it
      does not trim, and it accepts any non-empty reason. */
  predicate IsValid(c: Chargeback) {
    && c.transactionId != ""
    && c.merchantId != ""
    && c.amount > 0.0
    && c.currency != ""
    && c.cardNumber != ""
    && c.reason != ""
    && !c.transactionDate.IsZero()
    && !c.chargebackDate.IsZero()
  }

  /** A valid request builds, at a non-zero instant, a record that passes
      IsValid. */
  lemma NewChargebackIsValid(req: CreateChargebackRequest, now: Time)
    requires !now.IsZero()
    requires Validate(req) == Pass
    ensures NewChargeback(req, now).Success?
    ensures IsValid(NewChargeback(req, now).value)
  {
    PassingRequestHasFields(req);
    assert |MaskCardNumber(req.cardNumber)| >= 4;
  }

  /** A request that passes validation has every required field present in
      the untrimmed sense IsValid uses. */
  lemma PassingRequestHasFields(req: CreateChargebackRequest)
    requires Validate(req) == Pass
    ensures req.transactionId != "" && req.merchantId != "" && req.currency != ""
    ensures req.amount > 0.0 && req.reason != "" && !req.transactionDate.IsZero()
  {
    assert !Violates(req, TransactionIdRule) && !Violates(req, MerchantIdRule);
    assert !Violates(req, AmountRule) && !Violates(req, CurrencyRule);
    assert !Violates(req, ReasonRule) && !Violates(req, TransactionDateRule);
    NotBlankIsNonEmpty(req.transactionId);
    NotBlankIsNonEmpty(req.merchantId);
    NotBlankIsNonEmpty(req.currency);
    assert |req.reason| >= |ReasonFraud|;
  }

  /** The outcome of Approve or Reject: the receiver after the call, and the
      error the call returned (None for nil). */
  datatype Transition = Transition(record: Chargeback, error: Option<string>)

  /** Approve: pending -> approved; from any other status the record is left
      as it was. */
  function Approve(c: Chargeback, now: Time): (t: Transition)
    ensures t.error.None? <==> c.status == StatusPending
    ensures t.error.None? ==> t.record.status == StatusApproved && t.record.updatedAt == now
    ensures t.error.None? ==> t.record.(status := c.status, updatedAt := c.updatedAt) == c
    ensures t.error.Some? ==> t.record == c && t.error.value == "only pending chargebacks can be approved"
  {
    if c.status != StatusPending then Transition(c, Some("only pending chargebacks can be approved"))
    else Transition(c.(status := StatusApproved, updatedAt := now), None)
  }

  /** Reject: pending -> rejected; from any other status the record is left
      as it was. */
  function Reject(c: Chargeback, now: Time): (t: Transition)
    ensures t.error.None? <==> c.status == StatusPending
    ensures t.error.None? ==> t.record.status == StatusRejected && t.record.updatedAt == now
    ensures t.error.None? ==> t.record.(status := c.status, updatedAt := c.updatedAt) == c
    ensures t.error.Some? ==> t.record == c && t.error.value == "only pending chargebacks can be rejected"
  {
    if c.status != StatusPending then Transition(c, Some("only pending chargebacks can be rejected"))
    else Transition(c.(status := StatusRejected, updatedAt := now), None)
  }

  /** One call of Approve or Reject at a given instant. */
  datatype Decision = ApproveAt(at: Time) | RejectAt(at: Time)

  function Apply(c: Chargeback, d: Decision): Chargeback {
    match d
    case ApproveAt(t) => Approve(c, t).record
    case RejectAt(t) => Reject(c, t).record
  }

  /** The record after a run of decisions, errors ignored. */
  function ApplyAll(c: Chargeback, ds: seq<Decision>): Chargeback
    decreases |ds|
  {
    if |ds| == 0 then c else ApplyAll(Apply(c, ds[0]), ds[1..])
  }

  /** Approved and rejected are terminal: no run of decisions changes a
      record that is not pending. */
  lemma {:induction false} TerminalStatusesStick(c: Chargeback, ds: seq<Decision>)
    requires c.status != StatusPending
    ensures ApplyAll(c, ds) == c
  {
    if |ds| > 0 {
      TerminalStatusesStick(Apply(c, ds[0]), ds[1..]);
    }
  }

  /** From pending, the first decision alone fixes the final status. */
  lemma FirstDecisionWins(c: Chargeback, ds: seq<Decision>)
    requires c.status == StatusPending
    requires |ds| > 0
    ensures ApplyAll(c, ds).status == (if ds[0].ApproveAt? then StatusApproved else StatusRejected)
  {
    TerminalStatusesStick(Apply(c, ds[0]), ds[1..]);
  }
}

=== FILE: create_chargeback.dfy ===
/** The create-chargeback use case: look up by transaction ID, refuse a
    duplicate, build the entity, save it, project it into a response.

    The repository is a collaborator: what FindByTransactionID and Save
    return is an input of Execute. `Submit` then runs Execute against an
    abstract store, one request at a time. */
module UseCase {
  import opened Wrappers
  import opened Strings
  import opened Entity

  // The use case's own request type has the same eight fields as
  // Entity.CreateChargebackRequest and Execute copies them one by one, so
  // the model uses the entity type for both.

  /** CreateChargebackResponse: every field of the saved record. */
  datatype CreateChargebackResponse = CreateChargebackResponse(
    id: string,
    transactionId: string,
    merchantId: string,
    amount: real,
    currency: string,
    cardNumber: string,
    reason: string,
    status: string,
    description: string,
    transactionDate: Time,
    chargebackDate: Time,
    createdAt: Time,
    updatedAt: Time)

  /** The response projection at the end of Execute. */
  function ToResponse(c: Chargeback): CreateChargebackResponse {
    CreateChargebackResponse(
      c.id, c.transactionId, c.merchantId, c.amount, c.currency, c.cardNumber,
      c.reason, c.status, c.description, c.transactionDate, c.chargebackDate,
      c.createdAt, c.updatedAt)
  }

  /** The record a response was projected from. */
  function FromResponse(r: CreateChargebackResponse): Chargeback {
    Chargeback(
      r.id, r.transactionId, r.merchantId, r.amount, r.currency, r.cardNumber,
      r.reason, r.status, r.description, r.transactionDate, r.chargebackDate,
      r.createdAt, r.updatedAt)
  }

  /** The projection loses nothing: it is a bijection between records and
      responses. */
  lemma ResponseRoundTrip(c: Chargeback, r: CreateChargebackResponse)
    ensures FromResponse(ToResponse(c)) == c
    ensures ToResponse(FromResponse(r)) == r
  {
  }

  /** What FindByTransactionID returned: an error (whatever record came with
      it), a record, or nil. */
  datatype Lookup = LookupError(error: string) | Found(existing: Chargeback) | NotFound

  /** What Save did: failed, or stored the record under a store-chosen ID. */
  datatype SaveResult = SaveError(error: string) | Saved(assignedId: string)

  /** One run of Execute: the record handed to Save, if Save was called, and
      the (response, error) pair returned. */
  datatype Execution = Execution(saveCall: Option<Chargeback>, result: Result<CreateChargebackResponse>)

  const LookupErrorPrefix := "failed to check existing chargeback: "
  const DuplicatePrefix := "chargeback already exists for transaction "
  const EntityErrorPrefix := "failed to create chargeback entity: "
  const SaveErrorPrefix := "failed to save chargeback: "

  /** CreateChargebackUseCase.Execute, with `now` the instant NewChargeback
      reads from the clock. */
  function Execute(req: CreateChargebackRequest, lookup: Lookup, now: Time, save: SaveResult): (x: Execution)
    // lookup failure: nothing built, nothing saved
    ensures lookup.LookupError? ==>
      x == Execution(None, Failure(LookupErrorPrefix + lookup.error))
    // duplicate: refused before validation, nothing saved
    ensures lookup.Found? ==>
      x == Execution(None, Failure(DuplicatePrefix + req.transactionId))
    // invalid request: the validation text behind a fixed prefix, nothing saved
    ensures lookup.NotFound? && Validate(req).Fail? ==>
      x == Execution(None, Failure(EntityErrorPrefix + Validate(req).error))
    // Save is called exactly after a clean lookup of a valid request, and
    // with the freshly built pending record
    ensures x.saveCall.Some? <==> lookup.NotFound? && Validate(req) == Pass
    ensures x.saveCall.Some? ==> Success(x.saveCall.value) == NewChargeback(req, now)
    ensures x.saveCall.Some? && save.SaveError? ==>
      x.result == Failure(SaveErrorPrefix + save.error)
    // success: the saved record under the store's ID, field for field
    ensures x.result.Success? <==> x.saveCall.Some? && save.Saved?
    ensures x.result.Success? ==>
      && x.result.value == ToResponse(x.saveCall.value.(id := save.assignedId))
      && x.result.value.id == save.assignedId
      && x.result.value.status == StatusPending
      && x.result.value.cardNumber == MaskCardNumber(req.cardNumber)
  {
    match lookup
    case LookupError(e) => Execution(None, Failure(LookupErrorPrefix + e))
    case Found(_) => Execution(None, Failure(DuplicatePrefix + req.transactionId))
    case NotFound =>
      match NewChargeback(req, now)
      case Failure(e) => Execution(None, Failure(EntityErrorPrefix + e))
      case Success(c) =>
        match save
        case SaveError(e) => Execution(Some(c), Failure(SaveErrorPrefix + e))
        case Saved(id) => Execution(Some(c), Success(ToResponse(c.(id := id))))
  }

  /** A duplicate is reported as a duplicate even when the request is also
      invalid: the lookup runs before validation. */
  lemma DuplicateBeatsValidation(req: CreateChargebackRequest, existing: Chargeback, now: Time, save: SaveResult)
    requires Validate(req).Fail?
    ensures Execute(req, Found(existing), now, save).result.error == DuplicatePrefix + req.transactionId
    ensures !HasPrefix(Execute(req, Found(existing), now, save).result.error, EntityErrorPrefix)
  {
    var e := Execute(req, Found(existing), now, save).result.error;
    assert e[0] != EntityErrorPrefix[0];
  }

  /* ---------------------------------------------------------------------
     Sequential runs against an abstract store
     --------------------------------------------------------------------- */

  /** The records in the store, in insertion order. */
  type Store = seq<Chargeback>

  /** FindByTransactionID over the store: the first record with that
      transaction ID. */
  function FindByTransactionId(store: Store, txId: string): (r: Option<Chargeback>)
    ensures r.Some? <==> exists i :: 0 <= i < |store| && store[i].transactionId == txId
    ensures r.Some? ==> r.value in store && r.value.transactionId == txId
  {
    if |store| == 0 then None
    else if store[0].transactionId == txId then Some(store[0])
    else FindByTransactionId(store[1..], txId)
  }

  /** How the collaborating store behaves on one request: whether the lookup
      fails, whether the write fails, and the ID a successful write assigns. */
  datatype Faults = Faults(lookupError: Option<string>, saveError: Option<string>, assignedId: string)

  function LookupIn(store: Store, txId: string, f: Faults): Lookup {
    if f.lookupError.Some? then LookupError(f.lookupError.value)
    else match FindByTransactionId(store, txId)
      case Some(c) => Found(c)
      case None => NotFound
  }

  function SaveOf(f: Faults): SaveResult {
    if f.saveError.Some? then SaveError(f.saveError.value) else Saved(f.assignedId)
  }

  /** One request against the store: Execute, then the write Save made. */
  function Submit(store: Store, req: CreateChargebackRequest, now: Time, f: Faults): (Store, Result<CreateChargebackResponse>) {
    var x := Execute(req, LookupIn(store, req.transactionId, f), now, SaveOf(f));
    if x.result.Success? then (store + [x.saveCall.value.(id := f.assignedId)], x.result)
    else (store, x.result)
  }

  /** No two records share a transaction ID. */
  predicate UniqueTransactions(store: Store) {
    forall i, j :: 0 <= i < j < |store| ==> store[i].transactionId != store[j].transactionId
  }

  /** Number of records with a given transaction ID. */
  function CountTx(store: Store, txId: string): nat {
    if |store| == 0 then 0
    else (if store[|store| - 1].transactionId == txId then 1 else 0) + CountTx(store[..|store| - 1], txId)
  }

  /** Run sequentially, Submit keeps transaction IDs unique: it writes only
      after a clean lookup found no record with that ID. */
  lemma SubmitKeepsTransactionsUnique(store: Store, req: CreateChargebackRequest, now: Time, f: Faults)
    requires UniqueTransactions(store)
    ensures UniqueTransactions(Submit(store, req, now, f).0)
  {
    var x := Execute(req, LookupIn(store, req.transactionId, f), now, SaveOf(f));
    if x.result.Success? {
      var s' := Submit(store, req, now, f).0;
      assert FindByTransactionId(store, req.transactionId).None?;
      assert s'[|store|].transactionId == req.transactionId;
      forall i, j | 0 <= i < j < |s'|
        ensures s'[i].transactionId != s'[j].transactionId
      {
        if j == |store| {
          assert s'[i] == store[i];
        } else {
          assert s'[i] == store[i] && s'[j] == store[j];
        }
      }
    }
  }

  /** Submit adds at most one record, and only one carrying the request's
      transaction ID, pending, with the masked card number. */
  lemma SubmitAddsAtMostOne(store: Store, req: CreateChargebackRequest, now: Time, f: Faults)
    ensures var (s', r) := Submit(store, req, now, f);
      && (r.Failure? ==> s' == store)
      && (r.Success? ==>
            && s' == store + [FromResponse(r.value)]
            && r.value.transactionId == req.transactionId
            && r.value.id == f.assignedId
            && r.value.status == StatusPending
            && r.value.cardNumber == MaskCardNumber(req.cardNumber))
  {
    var x := Execute(req, LookupIn(store, req.transactionId, f), now, SaveOf(f));
    if x.result.Success? {
      ResponseRoundTrip(x.saveCall.value.(id := f.assignedId), x.result.value);
    }
  }

  /** In a store with unique transaction IDs each ID is held by at most one
      record. */
  lemma {:induction false} UniqueMeansAtMostOne(store: Store, txId: string)
    requires UniqueTransactions(store)
    ensures CountTx(store, txId) <= 1
    ensures CountTx(store, txId) == 0 <==> FindByTransactionId(store, txId).None?
  {
    if |store| > 0 {
      var init := store[..|store| - 1];
      assert UniqueTransactions(init);
      UniqueMeansAtMostOne(init, txId);
      if store[|store| - 1].transactionId == txId {
        forall i | 0 <= i < |init|
          ensures init[i].transactionId != txId
        {
          assert init[i] == store[i];
        }
      }
      assert FindByTransactionId(store, txId).Some? <==> FindByTransactionId(init, txId).Some? || store[|store| - 1].transactionId == txId by {
        assert forall i :: 0 <= i < |init| ==> init[i] == store[i];
      }
    }
  }

  /** Two requests for the same transaction, one after the other, leave at
      most one record for it; and once the first has been stored, the second
      is refused with the duplicate message. */
  lemma SameTransactionTwice(store: Store, req1: CreateChargebackRequest, req2: CreateChargebackRequest,
                             now1: Time, now2: Time, f1: Faults, f2: Faults)
    requires UniqueTransactions(store)
    requires req1.transactionId == req2.transactionId
    ensures var (s1, r1) := Submit(store, req1, now1, f1);
      var (s2, r2) := Submit(s1, req2, now2, f2);
      && CountTx(s2, req1.transactionId) <= 1
      && (r1.Success? && f2.lookupError.None? ==>
            r2 == Failure(DuplicatePrefix + req2.transactionId) && s2 == s1)
  {
    var (s1, r1) := Submit(store, req1, now1, f1);
    SubmitKeepsTransactionsUnique(store, req1, now1, f1);
    SubmitKeepsTransactionsUnique(s1, req2, now2, f2);
    var s2 := Submit(s1, req2, now2, f2).0;
    UniqueMeansAtMostOne(s2, req1.transactionId);
    if r1.Success? {
      SubmitAddsAtMostOne(store, req1, now1, f1);
      assert s1[|store|].transactionId == req2.transactionId;
      assert FindByTransactionId(s1, req2.transactionId).Some?;
    }
  }
}

=== FILE: lambda.dfy ===
/** The API Gateway adapter: log-level parsing, routing on (method, path),
    and the mapping of use-case outcomes to proxy responses. JSON decoding
    of the body is an input; the success body is the response value itself. */
module Lambda {
  import opened Wrappers
  import opened Strings
  import opened Entity
  import opened UseCase
  import opened Service

  /** parseLogLevel: case-insensitive, with Info for anything unrecognised. */
  function ParseLogLevel(level: string): (l: LogLevel)
    ensures IsValidLevel(l)
  {
    var s := ToLower(level);
    if s == "debug" then LevelDebug
    else if s == "info" then LevelInfo
    else if s == "warn" || s == "warning" then LevelWarn
    else if s == "error" then LevelError
    else LevelInfo
  }

  /** Case does not matter to parseLogLevel. */
  lemma ParseLogLevelIgnoresCase(level: string)
    ensures ParseLogLevel(ToLower(level)) == ParseLogLevel(level)
  {
    ToLowerIdempotent(level);
  }

  /** Strings no keyword lowers to fall back to Info. */
  lemma ParseLogLevelDefault(level: string)
    requires ToLower(level) !in {"debug", "warn", "warning", "error"}
    ensures ParseLogLevel(level) == LevelInfo
  {
  }

  /** Parsing the name LogLevel.String gives a valid level returns that
      level, and "WARNING" is a second name for Warn. */
  lemma ParseLogLevelRoundTrip(l: LogLevel)
    requires IsValidLevel(l)
    ensures ParseLogLevel(LevelString(l)) == l
    ensures ParseLogLevel("WARNING") == LevelWarn
  {
    assert ToLower("DEBUG") == "debug";
    assert ToLower("INFO") == "info";
    assert ToLower("WARN") == "warn";
    assert ToLower("ERROR") == "error";
    assert ToLower("WARNING") == "warning";
  }

  datatype Route = HealthRoute | CreateRoute | NoRoute

  /** The routing switch of handler: exact match for health, prefix match
      for creation. Methods compare case-sensitively. */
  function RouteOf(httpMethod: string, path: string): (r: Route)
    ensures r == HealthRoute <==> httpMethod == "GET" && path == "/health"
    ensures r == CreateRoute <==>
      httpMethod == "POST" && (HasPrefix(path, "/chargebacks") || HasPrefix(path, "/api/v1/chargebacks"))
  {
    if path == "/health" && httpMethod == "GET" then HealthRoute
    else if HasPrefix(path, "/chargebacks") && httpMethod == "POST" then CreateRoute
    else if HasPrefix(path, "/api/v1/chargebacks") && httpMethod == "POST" then CreateRoute
    else NoRoute
  }

  /** Sample routes: creation is a prefix match, and every other pair is
      not found. */
  lemma RouteExamples()
    ensures RouteOf("POST", "/chargebacks/x") == CreateRoute
    ensures RouteOf("POST", "/api/v1/chargebacks") == CreateRoute
    ensures RouteOf("GET", "/chargebacks") == NoRoute
    ensures RouteOf("POST", "/health") == NoRoute
    ensures RouteOf("GET", "/health/") == NoRoute
  {
    assert HasPrefix("/chargebacks/x", "/chargebacks");
    assert "/health/" != "/health";
  }

  /** A proxy response body: literal text, or the JSON encoding of a
      use-case response (json.Marshal of that value). */
  datatype Body = Text(text: string) | ChargebackJson(response: CreateChargebackResponse)

  /** Every response also carries Content-Type: application/json. */
  datatype ProxyResponse = ProxyResponse(statusCode: int, body: Body)

  const NotFoundBody := "{\"error\":\"Not Found\",\"message\":\"Route not found\"}"
  const HealthBody := "{\"service\":\"chargeback-lambda\",\"status\":\"healthy\"}"
  const InternalErrorBody := "{\"error\":\"Internal Server Error\",\"message\":\"Failed to create chargeback\"}"

  /** handleHealth (the marshal of a fixed map cannot fail). */
  function HandleHealth(): ProxyResponse {
    ProxyResponse(200, Text(HealthBody))
  }

  /** handleCreateChargeback: `parsed` is the outcome of decoding the body,
      and the remaining parameters are those of Execute. */
  function HandleCreateChargeback(parsed: Result<CreateChargebackRequest>, lookup: Lookup, now: Time, save: SaveResult): (r: ProxyResponse)
    ensures parsed.Failure? ==> r.statusCode == 400
    ensures parsed.Success? ==>
      var x := Execute(parsed.value, lookup, now, save);
      && (x.result.Success? ==> r == ProxyResponse(201, ChargebackJson(x.result.value)))
      && (x.result.Failure? ==> r.statusCode == (if Contains(x.result.error, "validation") then 400 else 500))
  {
    match parsed
    case Failure(e) =>
      ProxyResponse(400, Text("{\"error\":\"Bad Request\",\"message\":\"Invalid JSON: " + e + "\"}"))
    case Success(req) =>
      match Execute(req, lookup, now, save).result
      case Failure(e) =>
        if Contains(e, "validation") then
          ProxyResponse(400, Text("{\"error\":\"Validation Error\",\"message\":\"" + e + "\"}"))
        else ProxyResponse(500, Text(InternalErrorBody))
      case Success(resp) => ProxyResponse(201, ChargebackJson(resp))
  }

  /** handler: route, then delegate. */
  function Handle(httpMethod: string, path: string, parsed: Result<CreateChargebackRequest>,
                  lookup: Lookup, now: Time, save: SaveResult): (r: ProxyResponse)
    ensures RouteOf(httpMethod, path) == NoRoute ==> r == ProxyResponse(404, Text(NotFoundBody))
    ensures RouteOf(httpMethod, path) == HealthRoute ==> r == ProxyResponse(200, Text(HealthBody))
    // a create route is answered by handleCreateChargeback, whatever the prefix
    ensures RouteOf(httpMethod, path) == CreateRoute ==> r == HandleCreateChargeback(parsed, lookup, now, save)
  {
    match RouteOf(httpMethod, path)
    case HealthRoute => HandleHealth()
    case CreateRoute => HandleCreateChargeback(parsed, lookup, now, save)
    case NoRoute => ProxyResponse(404, Text(NotFoundBody))
  }

  /** The fixed prefixes of the store and duplicate errors cannot begin a
      "validation" of their own, so those errors say "validation" exactly
      when the text behind the prefix does. */
  lemma LookupErrorSaysValidation(e: string)
    ensures Contains(LookupErrorPrefix + e, "validation") <==> Contains(e, "validation")
  {
    assert forall j :: 0 <= j < |LookupErrorPrefix| ==> LookupErrorPrefix[j] != 'v';
    ContainsAfterPrefix(LookupErrorPrefix, e, "validation");
  }

  lemma DuplicateErrorSaysValidation(txId: string)
    ensures Contains(DuplicatePrefix + txId, "validation") <==> Contains(txId, "validation")
  {
    assert forall j :: 0 <= j < |DuplicatePrefix| ==> DuplicatePrefix[j] != 'v';
    ContainsAfterPrefix(DuplicatePrefix, txId, "validation");
  }

  lemma SaveErrorSaysValidation(e: string)
    ensures Contains(SaveErrorPrefix + e, "validation") <==> Contains(e, "validation")
  {
    assert forall j :: 0 <= j < |SaveErrorPrefix| ==>
      SaveErrorPrefix[j] != 'v' || (j + 1 < |SaveErrorPrefix| && SaveErrorPrefix[j + 1] != 'a');
    ContainsAfterPrefix(SaveErrorPrefix, e, "validation");
  }

  lemma EntityErrorSaysValidation(req: CreateChargebackRequest)
    requires Validate(req).Fail?
    ensures Contains(EntityErrorPrefix + Validate(req).error, "validation")
  {
    ValidationErrorSaysValidation(req);
    ContainsInSuffix(EntityErrorPrefix, Validate(req).error, "validation");
  }

  /** The status of each use-case path: an invalid request is a 400, a
      duplicate is a 500 unless its transaction ID says "validation", store
      failures are 500 unless their text says "validation", and a created
      record is a 201. */
  lemma CreateStatusByPath(req: CreateChargebackRequest, lookup: Lookup, now: Time, save: SaveResult)
    ensures var r := HandleCreateChargeback(Success(req), lookup, now, save);
      && (lookup.NotFound? && Validate(req).Fail? ==> r.statusCode == 400)
      && (lookup.Found? ==> r.statusCode == (if Contains(req.transactionId, "validation") then 400 else 500))
      && (lookup.LookupError? ==> r.statusCode == (if Contains(lookup.error, "validation") then 400 else 500))
      && (lookup.NotFound? && Validate(req) == Pass && save.SaveError? ==>
            r.statusCode == (if Contains(save.error, "validation") then 400 else 500))
      && (lookup.NotFound? && Validate(req) == Pass && save.Saved? ==> r.statusCode == 201)
  {
    match lookup
    case LookupError(e) =>
      LookupErrorSaysValidation(e);
    case Found(_) =>
      DuplicateErrorSaysValidation(req.transactionId);
    case NotFound =>
      if Validate(req).Fail? {
        EntityErrorSaysValidation(req);
      } else if save.SaveError? {
        SaveErrorSaysValidation(save.error);
      }
  }

  /** A POST under either chargeback prefix gets the status of its use-case
      path: 400 for a body that does not decode or an invalid request, 201
      for a created record. */
  lemma HandleCreateStatus(httpMethod: string, path: string, parsed: Result<CreateChargebackRequest>,
                           lookup: Lookup, now: Time, save: SaveResult)
    requires httpMethod == "POST"
    requires HasPrefix(path, "/chargebacks") || HasPrefix(path, "/api/v1/chargebacks")
    ensures var r := Handle(httpMethod, path, parsed, lookup, now, save);
      && (parsed.Failure? ==> r.statusCode == 400)
      && (parsed.Success? && lookup.NotFound? && Validate(parsed.value).Fail? ==> r.statusCode == 400)
      && (parsed.Success? && lookup.NotFound? && Validate(parsed.value) == Pass && save.Saved? ==> r.statusCode == 201)
  {
    if parsed.Success? {
      CreateStatusByPath(parsed.value, lookup, now, save);
    }
  }

  /** The duplicate of the use-case tests, transaction "tx-12345", is
      answered with a 500, not a 400. */
  lemma DuplicateOfSampleIsServerError(req: CreateChargebackRequest, existing: Chargeback, now: Time, save: SaveResult)
    requires req.transactionId == "tx-12345"
    ensures Execute(req, Found(existing), now, save).result == Failure("chargeback already exists for transaction tx-12345")
    ensures HandleCreateChargeback(Success(req), Found(existing), now, save).statusCode == 500
  {
    DuplicateErrorSaysValidation(req.transactionId);
    assert !Contains("tx-12345", "validation");
  }
}

=== FILE: logger.dfy ===
/** The domain's logging vocabulary: severity levels and immutable log
    entries whose structured fields are only ever extended by copying. */
module Service {
  import opened Wrappers

  /** LogLevel is a Go int, so out-of-range levels exist and are handled. */
  type LogLevel = int

  const LevelDebug: LogLevel := 0
  const LevelInfo: LogLevel := 1
  const LevelWarn: LogLevel := 2
  const LevelError: LogLevel := 3

  /** LogLevel.IsValid */
  predicate IsValidLevel(l: LogLevel) {
    LevelDebug <= l <= LevelError
  }

  /** LogLevel.String */
  function LevelString(l: LogLevel): (r: string)
    ensures l == LevelDebug ==> r == "DEBUG"
    ensures l == LevelInfo ==> r == "INFO"
    ensures l == LevelWarn ==> r == "WARN"
    ensures l == LevelError ==> r == "ERROR"
    ensures r == "UNKNOWN" <==> !IsValidLevel(l)
  {
    if l == LevelDebug then "DEBUG"
    else if l == LevelInfo then "INFO"
    else if l == LevelWarn then "WARN"
    else if l == LevelError then "ERROR"
    else "UNKNOWN"
  }

  /** Distinct valid levels have distinct names. */
  lemma LevelStringInjective(a: LogLevel, b: LogLevel)
    requires IsValidLevel(a) && IsValidLevel(b)
    requires LevelString(a) == LevelString(b)
    ensures a == b
  {
  }

  /** A log entry; the field values are opaque (interface{} in Go). A nil
      field map behaves as the empty one, so both are the empty map here. */
  datatype LogEntry<V> = LogEntry(level: LogLevel, message: string, fields: map<string, V>)

  /** LogEntry.Validate: the message is checked before the level, and an
      invalid level prints through LevelString. */
  function ValidateEntry<V>(e: LogEntry<V>): (r: Outcome)
    ensures r == Pass <==> e.message != "" && IsValidLevel(e.level)
    ensures e.message == "" ==> r == Fail("log message cannot be empty")
    ensures e.message != "" && !IsValidLevel(e.level) ==> r == Fail("invalid log level: UNKNOWN")
  {
    if e.message == "" then Fail("log message cannot be empty")
    else if !IsValidLevel(e.level) then
      assert "invalid log level: " + LevelString(e.level) == "invalid log level: UNKNOWN";
      Fail("invalid log level: " + LevelString(e.level))
    else Pass
  }

  /** LogEntry.WithField: a copy of the fields with `key` set to `value`. */
  function WithField<V>(e: LogEntry<V>, key: string, value: V): (r: LogEntry<V>)
    ensures r.level == e.level && r.message == e.message
    ensures r.fields.Keys == e.fields.Keys + {key}
    ensures r.fields[key] == value
    ensures forall k :: k in e.fields && k != key ==> r.fields[k] == e.fields[k]
  {
    LogEntry(e.level, e.message, e.fields[key := value])
  }

  /** LogEntry.WithFields: a copy of the fields merged with `fields`, the
      new values winning on shared keys. */
  function WithFields<V>(e: LogEntry<V>, fields: map<string, V>): (r: LogEntry<V>)
    ensures r.level == e.level && r.message == e.message
    ensures r.fields.Keys == e.fields.Keys + fields.Keys
    ensures forall k :: k in fields ==> r.fields[k] == fields[k]
    ensures forall k :: k in e.fields && k !in fields ==> r.fields[k] == e.fields[k]
  {
    LogEntry(e.level, e.message, e.fields + fields)
  }

  /** Adding one field is merging a one-entry map. */
  lemma WithFieldIsWithFields<V>(e: LogEntry<V>, key: string, value: V)
    ensures WithField(e, key, value) == WithFields(e, map[key := value])
  {
  }

  /** Merging twice is merging the union, later keys winning. */
  lemma WithFieldsTwice<V>(e: LogEntry<V>, a: map<string, V>, b: map<string, V>)
    ensures WithFields(WithFields(e, a), b) == WithFields(e, a + b)
  {
  }

  /** Adding fields never changes whether an entry is valid. */
  lemma WithFieldsKeepsValidity<V>(e: LogEntry<V>, fields: map<string, V>)
    ensures ValidateEntry(WithFields(e, fields)) == ValidateEntry(e)
  {
  }
}

=== FILE: server.dfy ===
/** The standalone HTTP server's own decisions: configuration checking,
    the route table, CORS preflight and the health endpoint. Requests to
    /chargebacks are handed on to the chargeback handler, which is not part
    of this model. */
module Server {
  import opened Wrappers
  import opened Strings

  /* ---------------------------------------------------------------------
     strconv.Atoi and strconv.Itoa for a 64-bit int
     --------------------------------------------------------------------- */

  const MinInt64 := -0x8000_0000_0000_0000
  const MaxInt64 := 0x7FFF_FFFF_FFFF_FFFF

  predicate IsDigit(c: char) {
    '0' <= c <= '9'
  }

  predicate AllDigits(s: string) {
    forall i :: 0 <= i < |s| ==> IsDigit(s[i])
  }

  /** The value of a string of decimal digits, most significant first. */
  function DigitsValue(s: string): nat
    requires AllDigits(s)
  {
    if |s| == 0 then 0
    else DigitsValue(s[..|s| - 1]) * 10 + (s[|s| - 1] as int - '0' as int)
  }

  /** The text after an optional leading '+' or '-'. */
  function Unsigned(s: string): string {
    if |s| > 0 && (s[0] == '-' || s[0] == '+') then s[1..] else s
  }

  predicate Negative(s: string) {
    |s| > 0 && s[0] == '-'
  }

  /** strconv.Atoi: an optional sign, at least one ASCII digit, and a value
      inside the int64 range; None for the error. */
  function Atoi(s: string): (r: Option<int>)
    // accepted exactly when the digits are well formed and the value fits
    ensures r.Some? <==>
      && |Unsigned(s)| > 0 && AllDigits(Unsigned(s))
      && (if Negative(s) then DigitsValue(Unsigned(s)) <= -MinInt64 else DigitsValue(Unsigned(s)) <= MaxInt64)
    // and then the value is the signed value of the digits
    ensures r.Some? ==>
      && AllDigits(Unsigned(s))
      && r.value == (if Negative(s) then -(DigitsValue(Unsigned(s)) as int) else DigitsValue(Unsigned(s)))
    ensures r.Some? ==> MinInt64 <= r.value <= MaxInt64
  {
    var body := Unsigned(s);
    if |body| == 0 || !AllDigits(body) then None
    else
      var n: int := if Negative(s) then -(DigitsValue(body) as int) else DigitsValue(body);
      if MinInt64 <= n <= MaxInt64 then Some(n) else None
  }

  /** A leading zero adds nothing to the value of a digit string. */
  lemma {:induction false} LeadingZeroValue(d: string)
    requires AllDigits(d)
    ensures AllDigits("0" + d) && DigitsValue("0" + d) == DigitsValue(d)
    decreases |d|
  {
    var z := "0" + d;
    assert forall i :: 1 <= i < |z| ==> z[i] == d[i - 1];
    if |d| > 0 {
      assert z[..|z| - 1] == "0" + d[..|d| - 1];
      assert AllDigits(d[..|d| - 1]) by {
        assert forall i :: 0 <= i < |d| - 1 ==> d[..|d| - 1][i] == d[i];
      }
      LeadingZeroValue(d[..|d| - 1]);
    }
  }

  /** A '+' sign changes nothing: "+8080" reads as "8080" does. */
  lemma AtoiPlusSign(d: string)
    requires |d| > 0 && AllDigits(d)
    ensures Atoi("+" + d) == Atoi(d)
  {
    assert ("+" + d)[1..] == d;
    assert Unsigned(d) == d;
  }

  /** A leading zero changes nothing: "08080" reads as "8080" does. */
  lemma AtoiLeadingZero(d: string)
    requires |d| > 0 && AllDigits(d)
    ensures Atoi("0" + d) == Atoi(d)
  {
    LeadingZeroValue(d);
    assert Unsigned("0" + d) == "0" + d;
    assert Unsigned(d) == d;
  }

  /** A '-' sign negates, down to the int64 minimum. */
  lemma AtoiMinusSign(d: string)
    requires |d| > 0 && AllDigits(d) && DigitsValue(d) <= -MinInt64
    ensures Atoi("-" + d) == Some(-(DigitsValue(d) as int))
  {
    assert ("-" + d)[1..] == d;
  }

  /** The decimal digits of a natural number, without leading zeros. */
  function NatDigits(n: nat): (s: string)
    ensures |s| > 0 && AllDigits(s)
    decreases n
  {
    if n < 10 then [('0' as int + n) as char]
    else NatDigits(n / 10) + [('0' as int + n % 10) as char]
  }

  /** strconv.Itoa */
  function Itoa(n: int): string {
    if n < 0 then "-" + NatDigits(-n) else NatDigits(n)
  }

  /** Reading back the digits of n gives n. */
  lemma {:induction false} NatDigitsValue(n: nat)
    ensures DigitsValue(NatDigits(n)) == n
    decreases n
  {
    var s := NatDigits(n);
    if n >= 10 {
      NatDigitsValue(n / 10);
      assert s[..|s| - 1] == NatDigits(n / 10);
    }
  }

  /** Atoi reads back every int64 that Itoa writes. */
  lemma AtoiItoa(n: int)
    requires MinInt64 <= n <= MaxInt64
    ensures Atoi(Itoa(n)) == Some(n)
  {
    var s := Itoa(n);
    if n < 0 {
      NatDigitsValue(-n);
      assert s[1..] == NatDigits(-n);
      assert Unsigned(s) == NatDigits(-n) && Negative(s);
    } else {
      NatDigitsValue(n);
      assert Unsigned(s) == NatDigits(n) && !Negative(s);
    }
  }

  /* ---------------------------------------------------------------------
     Configuration
     --------------------------------------------------------------------- */

  datatype ServerConfig = ServerConfig(port: string)

  /** ServerConfig.Validate: a port must be present and parse as an int;
      no range check on the number is made. */
  function ValidateServerConfig(c: ServerConfig): (r: Outcome)
    ensures r == Pass <==> c.port != "" && Atoi(c.port).Some?
    ensures c.port == "" ==> r == Fail("port is required")
    ensures c.port != "" && Atoi(c.port).None? ==> r == Fail("port must be a valid number")
  {
    if c.port == "" then Fail("port is required")
    else if Atoi(c.port).None? then Fail("port must be a valid number")
    else Pass
  }

  /** Every decimal int64 is an accepted port, negative or not; a port with
      any character that is neither a digit nor a leading sign is refused. */
  lemma PortsAccepted(n: int, port: string, k: nat)
    requires MinInt64 <= n <= MaxInt64
    requires k < |port| && !IsDigit(port[k])
    requires k > 0 || (port[0] != '-' && port[0] != '+')
    ensures ValidateServerConfig(ServerConfig(Itoa(n))) == Pass
    ensures ValidateServerConfig(ServerConfig(port)) == Fail("port must be a valid number")
  {
    AtoiItoa(n);
    if port[0] == '-' || port[0] == '+' {
      assert Unsigned(port)[k - 1] == port[k];
    } else {
      assert Unsigned(port)[k] == port[k];
    }
  }

  /** Start: refuses an invalid configuration before listening; otherwise
      the address it listens on. */
  function Start(c: ServerConfig): (r: Result<string>)
    ensures r.Failure? <==> ValidateServerConfig(c).Fail?
    ensures r.Failure? ==> r.error == "invalid server configuration: " + ValidateServerConfig(c).error
    ensures r.Success? ==> r.value == ":" + c.port
  {
    match ValidateServerConfig(c)
    case Fail(e) => Failure("invalid server configuration: " + e)
    case Pass => Success(":" + c.port)
  }

  /* ---------------------------------------------------------------------
     Requests
     --------------------------------------------------------------------- */

  const ValidRoutes: seq<string> := ["/health", "/chargebacks"]

  /** routeExists: exact comparison with each registered pattern. */
  predicate RouteExists(path: string) {
    exists i | 0 <= i < |ValidRoutes| :: path == ValidRoutes[i]
  }

  /** Only the two registered paths exist; nothing below them does. */
  lemma RouteExistsExactly(path: string)
    ensures RouteExists(path) <==> path == "/health" || path == "/chargebacks"
    ensures !RouteExists("/chargebacks/x") && !RouteExists("/health/")
  {
    assert ValidRoutes[0] == "/health" && ValidRoutes[1] == "/chargebacks";
    assert "/chargebacks/x" != "/chargebacks" && "/health/" != "/health";
  }

  const CorsHeaders: map<string, string> := map[
    "Access-Control-Allow-Origin" := "*",
    "Access-Control-Allow-Methods" := "GET, POST, PUT, DELETE, OPTIONS",
    "Access-Control-Allow-Headers" := "Content-Type, Authorization"]

  /** What was written for a request: a status with an optional JSON object
      body, or the request was passed to the chargeback handler. */
  datatype Reply = Written(status: int, body: Option<map<string, string>>) | ToChargebackHandler

  datatype ServerResponse = ServerResponse(headers: map<string, string>, reply: Reply)

  /** handleHealth; `timestamp` is the RFC 3339 rendering of the clock. */
  function HandleHealth(httpMethod: string, headers: map<string, string>, timestamp: string): ServerResponse {
    var json := headers["Content-Type" := "application/json"];
    if httpMethod != "GET" then
      ServerResponse(json, Written(405, Some(map["error" := "Method not allowed"])))
    else
      ServerResponse(json, Written(200, Some(map["service" := "chargeback-api", "status" := "ok", "timestamp" := timestamp])))
  }

  /** ServeHTTP with corsMiddleware in front of it. */
  function ServeHTTP(httpMethod: string, path: string, timestamp: string): (r: ServerResponse)
    // the CORS headers are set on every request
    ensures forall h :: h in CorsHeaders ==> h in r.headers && r.headers[h] == CorsHeaders[h]
    // a preflight is answered at once, whatever the path
    ensures httpMethod == "OPTIONS" ==> r.reply == Written(200, None)
    ensures httpMethod != "OPTIONS" && !RouteExists(path) ==>
      r.reply == Written(404, Some(map["error" := "Not found"]))
    // the health endpoint refuses every method but GET
    ensures httpMethod != "OPTIONS" && httpMethod != "GET" && path == "/health" ==>
      r.reply == Written(405, Some(map["error" := "Method not allowed"]))
    ensures httpMethod == "GET" && path == "/health" ==>
      r.reply == Written(200, Some(map["service" := "chargeback-api", "status" := "ok", "timestamp" := timestamp]))
    ensures r.reply == ToChargebackHandler <==> httpMethod != "OPTIONS" && path == "/chargebacks"
    // every JSON reply is labelled as such
    ensures r.reply.Written? && r.reply.body.Some? ==>
      "Content-Type" in r.headers && r.headers["Content-Type"] == "application/json"
  {
    RouteExistsExactly(path);
    var headers := CorsHeaders;
    if httpMethod == "OPTIONS" then ServerResponse(headers, Written(200, None))
    else if !RouteExists(path) then
      ServerResponse(headers["Content-Type" := "application/json"], Written(404, Some(map["error" := "Not found"])))
    else if path == "/health" then HandleHealth(httpMethod, headers, timestamp)
    else ServerResponse(headers, ToChargebackHandler)
  }
}

=== FILE: strings.dfy ===
/** The parts of Go's `strings` package the service relies on, over strings
    of Unicode code points. */
module Strings {

  /** unicode.IsSpace: the characters strings.TrimSpace removes. */
  predicate IsSpace(c: char) {
    || c == ' ' || c == '\t' || c == '\n' || c == '\r'
    || c == '\U{0B}' || c == '\U{0C}' || c == '\U{85}' || c == '\U{A0}'
    || c == '\U{1680}' || ('\U{2000}' <= c <= '\U{200A}')
    || c == '\U{2028}' || c == '\U{2029}' || c == '\U{202F}'
    || c == '\U{205F}' || c == '\U{3000}'
  }

  predicate AllSpace(s: string) {
    forall i :: 0 <= i < |s| ==> IsSpace(s[i])
  }

  /** Drops the longest all-space prefix. */
  function TrimLeft(s: string): (r: string)
    ensures |r| <= |s| && r == s[|s| - |r|..]
    ensures AllSpace(s[..|s| - |r|])
    ensures r == [] || !IsSpace(r[0])
  {
    if |s| > 0 && IsSpace(s[0]) then
      var r := TrimLeft(s[1..]);
      assert s[..|s| - |r|] == [s[0]] + s[1..][..|s| - 1 - |r|];
      AllSpaceConcat([s[0]], s[1..][..|s| - 1 - |r|]);
      r
    else s
  }

  /** Drops the longest all-space suffix. */
  function TrimRight(s: string): (r: string)
    ensures |r| <= |s| && r == s[..|r|]
    ensures AllSpace(s[|r|..])
    ensures r == [] || !IsSpace(r[|r| - 1])
  {
    if |s| > 0 && IsSpace(s[|s| - 1]) then
      var r := TrimRight(s[..|s| - 1]);
      assert s[|r|..] == s[..|s| - 1][|r|..] + [s[|s| - 1]];
      AllSpaceConcat(s[..|s| - 1][|r|..], [s[|s| - 1]]);
      r
    else s
  }

  /** strings.TrimSpace */
  function TrimSpace(s: string): string {
    TrimRight(TrimLeft(s))
  }

  /** `strings.TrimSpace(s) == ""`, the blank test of request validation. */
  predicate IsBlank(s: string) {
    TrimSpace(s) == ""
  }

  /** A string is blank exactly when every character in it is white space. */
  lemma BlankIffAllSpace(s: string)
    ensures IsBlank(s) <==> AllSpace(s)
  {
    var l := TrimLeft(s);
    if TrimSpace(s) == "" {
      assert l[0..] == l;
      assert s == s[..|s| - |l|] + l;
      AllSpaceConcat(s[..|s| - |l|], l);
    }
    if AllSpace(s) {
      TrimLeftAllSpace(s);
    }
  }

  /** White space followed by white space is white space. */
  lemma AllSpaceConcat(a: string, b: string)
    requires AllSpace(a) && AllSpace(b)
    ensures AllSpace(a + b)
  {
    assert forall i :: |a| <= i < |a + b| ==> (a + b)[i] == b[i - |a|];
  }

  /** An all-space string trims to nothing from the left. */
  lemma {:induction false} TrimLeftAllSpace(s: string)
    requires AllSpace(s)
    ensures TrimLeft(s) == []
  {
    if |s| > 0 {
      assert AllSpace(s[1..]) by {
        assert forall i :: 0 <= i < |s| - 1 ==> s[1..][i] == s[i + 1];
      }
      TrimLeftAllSpace(s[1..]);
    }
  }

  /** A blank string is empty or starts with white space; so a non-blank
      string is never empty. */
  lemma NotBlankIsNonEmpty(s: string)
    requires !IsBlank(s)
    ensures s != ""
  {
    BlankIffAllSpace(s);
  }

  /** strings.Repeat(c, n) for a one-character string. */
  function Repeat(c: char, n: nat): (r: string)
    ensures |r| == n
    ensures forall i :: 0 <= i < n ==> r[i] == c
  {
    if n == 0 then [] else [c] + Repeat(c, n - 1)
  }

  /** strings.HasPrefix */
  predicate HasPrefix(s: string, prefix: string) {
    prefix <= s
  }

  /** `w` occurs in `s` at index i. */
  predicate OccursAt(s: string, w: string, i: int) {
    0 <= i && i + |w| <= |s| && s[i..i + |w|] == w
  }

  /** A word at the head of the prefix is contained in any extension. */
  lemma ContainsAtStart(p: string, t: string, w: string)
    requires HasPrefix(p, w)
    ensures Contains(p + t, w)
  {
    assert (p + t)[0..|w|] == w;
    assert OccursAt(p + t, w, 0);
  }

  /** strings.Contains */
  predicate Contains(s: string, w: string) {
    exists i | 0 <= i <= |s| - |w| :: OccursAt(s, w, i)
  }

  /** An occurrence in a suffix is an occurrence in the whole string. */
  lemma ContainsInSuffix(p: string, t: string, w: string)
    requires Contains(t, w)
    ensures Contains(p + t, w)
  {
    var i :| 0 <= i <= |t| - |w| && OccursAt(t, w, i);
    assert (p + t)[|p| + i..|p| + i + |w|] == t[i..i + |w|];
    assert OccursAt(p + t, w, |p| + i);
  }

  /** An occurrence in a prefix is an occurrence in the whole string. */
  lemma ContainsInPrefix(p: string, t: string, w: string)
    requires Contains(p, w)
    ensures Contains(p + t, w)
  {
    var i :| 0 <= i <= |p| - |w| && OccursAt(p, w, i);
    assert (p + t)[i..i + |w|] == p[i..i + |w|];
    assert OccursAt(p + t, w, i);
  }

  /** A string containing itself. */
  lemma ContainsSelf(w: string)
    ensures Contains(w, w)
  {
    assert OccursAt(w, w, 0);
  }

  /** No occurrence of `w` in `p + t` can start inside `p` when every
      character of `p` equal to w[0] is followed, still inside `p`, by one
      different from w[1]. */
  lemma ContainsAfterPrefix(p: string, t: string, w: string)
    requires |w| >= 2
    requires forall j :: 0 <= j < |p| ==> p[j] != w[0] || (j + 1 < |p| && p[j + 1] != w[1])
    ensures Contains(p + t, w) <==> Contains(t, w)
  {
    if Contains(p + t, w) {
      var i :| 0 <= i <= |p + t| - |w| && OccursAt(p + t, w, i);
      assert (p + t)[i] == w[0] && (p + t)[i + 1] == w[1] by {
        assert (p + t)[i..i + |w|][0] == w[0];
        assert (p + t)[i..i + |w|][1] == w[1];
      }
      assert forall j :: 0 <= j < |p| ==> (p + t)[j] != w[0] || (p + t)[j + 1] != w[1];
      assert i >= |p|;
      assert t[i - |p|..i - |p| + |w|] == (p + t)[i..i + |w|];
      assert OccursAt(t, w, i - |p|);
    }
    if Contains(t, w) {
      ContainsInSuffix(p, t, w);
    }
  }

  /** strings.Join */
  function Join(parts: seq<string>, sep: string): string {
    if |parts| == 0 then ""
    else if |parts| == 1 then parts[0]
    else parts[0] + sep + Join(parts[1..], sep)
  }

  /** Every part can be found in the joined text. */
  lemma {:induction false} JoinContainsParts(parts: seq<string>, sep: string, k: nat)
    requires k < |parts|
    ensures Contains(Join(parts, sep), parts[k])
  {
    if |parts| == 1 {
      ContainsSelf(parts[0]);
    } else if k == 0 {
      ContainsSelf(parts[0]);
      ContainsInPrefix(parts[0], sep + Join(parts[1..], sep), parts[0]);
      assert parts[0] + sep + Join(parts[1..], sep) == parts[0] + (sep + Join(parts[1..], sep));
    } else {
      JoinContainsParts(parts[1..], sep, k - 1);
      ContainsInSuffix(parts[0] + sep, Join(parts[1..], sep), parts[k]);
    }
  }

  /** unicode.ToLower restricted to the characters it maps into ASCII:
      the ASCII capitals, U+0130 (capital I with dot) and U+212A (Kelvin
      sign). Every other character is left alone. */
  function LowerChar(c: char): (r: char)
    ensures 'A' <= c <= 'Z' ==> r as int == c as int + 32
    ensures r != c ==> ('A' <= c <= 'Z' || c == '\U{130}' || c == '\U{212A}')
  {
    if 'A' <= c <= 'Z' then (c as int + 32) as char
    else if c == '\U{130}' then 'i'
    else if c == '\U{212A}' then 'k'
    else c
  }

  /** strings.ToLower, exact on every character whose lower case is ASCII. */
  function ToLower(s: string): (r: string)
    ensures |r| == |s|
    ensures forall i :: 0 <= i < |s| ==> r[i] == LowerChar(s[i])
  {
    seq(|s|, i requires 0 <= i < |s| => LowerChar(s[i]))
  }

  /** Lowering twice is lowering once. */
  lemma ToLowerIdempotent(s: string)
    ensures ToLower(ToLower(s)) == ToLower(s)
  {
  }
}

=== FILE: structured_logger.dfy ===
/** The decision logic of the slog-backed structured logger: configuration
    checks, level conversion and the validate-then-gate prefix of Log.
    Rendering the record is the slog handler's business and is not modelled. */
module Logging {
  import opened Wrappers
  import opened Service

  /** LogFormat is a Go int. */
  type LogFormat = int

  const FormatJson: LogFormat := 0
  const FormatText: LogFormat := 1

  /** LogFormat.IsValid */
  predicate IsValidFormat(f: LogFormat) {
    FormatJson <= f <= FormatText
  }

  /** LogFormat.String */
  function FormatString(f: LogFormat): (r: string)
    ensures f == FormatJson ==> r == "json"
    ensures f == FormatText ==> r == "text"
    ensures r == "unknown" <==> !IsValidFormat(f)
  {
    if f == FormatJson then "json"
    else if f == FormatText then "text"
    else "unknown"
  }

  datatype LoggerConfig = LoggerConfig(level: LogLevel, format: LogFormat, serviceName: string, version: string)

  /** LoggerConfig.Validate: the level is checked before the format; both
      print through their String methods. */
  function ValidateConfig(c: LoggerConfig): (r: Outcome)
    ensures r == Pass <==> IsValidLevel(c.level) && IsValidFormat(c.format)
    ensures !IsValidLevel(c.level) ==> r == Fail("invalid log level: UNKNOWN")
    ensures IsValidLevel(c.level) && !IsValidFormat(c.format) ==> r == Fail("invalid log format: unknown")
  {
    if !IsValidLevel(c.level) then
      assert "invalid log level: " + LevelString(c.level) == "invalid log level: UNKNOWN";
      Fail("invalid log level: " + LevelString(c.level))
    else if !IsValidFormat(c.format) then
      assert "invalid log format: " + FormatString(c.format) == "invalid log format: unknown";
      Fail("invalid log format: " + FormatString(c.format))
    else Pass
  }

  // slog's numeric levels.
  const SlogDebug := -4
  const SlogInfo := 0
  const SlogWarn := 4
  const SlogError := 8

  /** convertLogLevel: the handler's minimum level. */
  function ConvertLogLevel(l: LogLevel): int {
    if l == LevelDebug then SlogDebug
    else if l == LevelInfo then SlogInfo
    else if l == LevelWarn then SlogWarn
    else if l == LevelError then SlogError
    else SlogInfo
  }

  /** convertDomainLevelToSlog: the level of one record. */
  function ConvertDomainLevelToSlog(l: LogLevel): int {
    if l == LevelDebug then SlogDebug
    else if l == LevelInfo then SlogInfo
    else if l == LevelWarn then SlogWarn
    else if l == LevelError then SlogError
    else SlogInfo
  }

  /** The two converters are the same map: order-preserving and injective on
      the valid levels, Info for everything else. */
  lemma ConvertersAgree(a: LogLevel, b: LogLevel)
    ensures ConvertLogLevel(a) == ConvertDomainLevelToSlog(a)
    ensures !IsValidLevel(a) ==> ConvertLogLevel(a) == SlogInfo
    ensures IsValidLevel(a) && IsValidLevel(b) ==> (a <= b <==> ConvertLogLevel(a) <= ConvertLogLevel(b))
  {
  }

  datatype Handler = JsonHandler | TextHandler

  /** A constructed logger: the handler it writes through, the handler's
      minimum slog level, and the configuration it came from. */
  datatype StructuredLogger = StructuredLogger(handler: Handler, minLevel: int, config: LoggerConfig)

  /** NewStructuredLogger (the writer is left out: a nil one means stdout). */
  function NewStructuredLogger(c: LoggerConfig): (r: Result<StructuredLogger>)
    ensures r.Success? <==> ValidateConfig(c) == Pass
    ensures r.Failure? ==> r.error == "invalid logger config: " + ValidateConfig(c).error
    ensures r.Success? ==>
      && r.value.minLevel == ConvertLogLevel(c.level)
      && r.value.config == c
      && (r.value.handler == JsonHandler <==> c.format == FormatJson)
  {
    match ValidateConfig(c)
    case Fail(e) => Failure("invalid logger config: " + e)
    case Pass =>
      var handler :=
        if c.format == FormatJson then Some(JsonHandler)
        else if c.format == FormatText then Some(TextHandler)
        else None;
      match handler
      case Some(h) => Success(StructuredLogger(h, ConvertLogLevel(c.level), c))
      case None => Failure("unsupported log format: " + FormatString(c.format))
  }

  /** The "unsupported log format" error can never be returned: validation
      has already refused every format the switch does not name. */
  lemma UnsupportedFormatUnreachable(c: LoggerConfig)
    ensures NewStructuredLogger(c).Failure? ==>
      NewStructuredLogger(c).error != "unsupported log format: " + FormatString(c.format)
  {
    var r := NewStructuredLogger(c);
    if r.Failure? {
      var p := "invalid logger config: ";
      assert r.error[0] == p[0];
    }
  }

  /** The configurations of NewDefaultLogger (also NewProductionLogger) and
      NewDevelopmentLogger; the version is left empty. */
  const DefaultConfig := LoggerConfig(LevelInfo, FormatJson, "chargeback-api", "")
  const DevelopmentConfig := LoggerConfig(LevelDebug, FormatText, "chargeback-api", "")

  /** The preset constructors never fail: the default logger writes JSON
      from Info up, the development logger text from Debug up. */
  lemma PresetLoggersBuild()
    ensures NewStructuredLogger(DefaultConfig).Success?
    ensures NewStructuredLogger(DefaultConfig).value.handler == JsonHandler
    ensures NewStructuredLogger(DefaultConfig).value.minLevel == SlogInfo
    ensures NewStructuredLogger(DevelopmentConfig).Success?
    ensures NewStructuredLogger(DevelopmentConfig).value.handler == TextHandler
    ensures NewStructuredLogger(DevelopmentConfig).value.minLevel == SlogDebug
  {
  }

  /** What one call of Log does. */
  datatype LogOutcome<V> =
    | Rejected(error: string)
    | Disabled
    | Emitted(slogLevel: int, message: string, fields: map<string, V>)

  /** StructuredLogger.Log up to the point where the record is handed to
      slog: an invalid entry is refused, a disabled level is dropped. */
  function Log<V>(s: StructuredLogger, e: LogEntry<V>): (r: LogOutcome<V>)
    ensures r.Rejected? <==> ValidateEntry(e).Fail?
    ensures r.Rejected? ==> r.error == "invalid log entry: " + ValidateEntry(e).error
    ensures r.Emitted? <==> ValidateEntry(e) == Pass && ConvertDomainLevelToSlog(e.level) >= s.minLevel
    ensures r.Emitted? ==> r.message == e.message && r.fields == e.fields
    // the record is logged at the slog level the entry's level converts to
    ensures r.Emitted? ==> r.slogLevel == ConvertDomainLevelToSlog(e.level)
  {
    match ValidateEntry(e)
    case Fail(err) => Rejected("invalid log entry: " + err)
    case Pass =>
      var level := ConvertDomainLevelToSlog(e.level);
      if level < s.minLevel then Disabled
      else Emitted(level, e.message, e.fields)
  }

  /** Through a logger built from `c`, a valid entry is written exactly when
      its level is at least the configured one. */
  lemma EmitIffAtLeastConfigured<V>(c: LoggerConfig, e: LogEntry<V>)
    requires NewStructuredLogger(c).Success?
    ensures var r := Log(NewStructuredLogger(c).value, e);
      && (r.Rejected? <==> e.message == "" || !IsValidLevel(e.level))
      && (r.Emitted? <==> e.message != "" && IsValidLevel(e.level) && e.level >= c.level)
      && (r.Emitted? ==> r.slogLevel == ConvertLogLevel(e.level))
  {
    ConvertersAgree(e.level, c.level);
    ConvertersAgree(c.level, e.level);
  }

  /** The field maps of a Debug/Info/Warn/Error call merged left to right
      into a fresh map. */
  function MergeFields<V>(maps: seq<map<string, V>>): (m: map<string, V>)
    ensures forall k :: k in m <==> exists i :: 0 <= i < |maps| && k in maps[i]
    decreases |maps|
  {
    if |maps| == 0 then map[]
    else MergeFields(maps[..|maps| - 1]) + maps[|maps| - 1]
  }

  /** A merged key carries its value from the last map that has it. */
  lemma {:induction false} MergeFieldsLastWins<V>(maps: seq<map<string, V>>, k: string, i: nat)
    requires i < |maps| && k in maps[i]
    requires forall j :: i < j < |maps| ==> k !in maps[j]
    ensures k in MergeFields(maps) && MergeFields(maps)[k] == maps[i][k]
  {
    if i < |maps| - 1 {
      var init := maps[..|maps| - 1];
      assert forall j :: i < j < |init| ==> init[j] == maps[j];
      MergeFieldsLastWins(init, k, i);
    }
  }

  /** Debug, Info, Warn and Error: build an entry at a fixed level and Log it. */
  function LogAt<V>(s: StructuredLogger, level: LogLevel, message: string, maps: seq<map<string, V>>): LogOutcome<V> {
    Log(s, LogEntry(level, message, MergeFields(maps)))
  }

  /** A level helper with an empty message is always refused. */
  lemma EmptyMessageRefused<V>(s: StructuredLogger, level: LogLevel, maps: seq<map<string, V>>)
    ensures LogAt(s, level, "", maps) == Rejected("invalid log entry: log message cannot be empty")
  {
    var e := LogEntry(level, "", MergeFields(maps));
    var r := Log(s, e);
    assert ValidateEntry(e) == Fail("log message cannot be empty");
    assert r.error == "invalid log entry: " + "log message cannot be empty";
    assert "invalid log entry: " + "log message cannot be empty" == "invalid log entry: log message cannot be empty";
  }
}

=== FILE: wrappers.dfy ===
/** Failure-carrying datatypes shared by every module of the model.
    A Go `error` is modelled by the text its Error() method returns. */
module Wrappers {

  datatype Option<+T> = None | Some(value: T)

  /** The (value, error) pair of a Go function: exactly one side is present. */
  datatype Result<+R> = Success(value: R) | Failure(error: string)

  /** A Go function that returns only an `error`: nil is Pass. */
  datatype Outcome = Pass | Fail(error: string)
}
